=== FILE: README.md ===
# AssetHistory: a Dafny model of the revision picker and the data-asset diff

AssetHistory is an Unreal Engine editor plugin. It adds a "History" menu to the
editor of a primary data asset. The menu lists the asset's source-control
revisions as (previous, candidate) pairs. Picking one either diffs the two
snapshots in a details-view diff window, opens an editor on the candidate, or
reports that the assets could not be loaded. This project models the logic the
plugin itself decides, as immutable datatypes and pure functions:

- `Revision` (revision.dfy): the extended revision record, the `InvalidRevision`
  sentinel and the Local (HEAD) pseudo-revision.
- `RevisionMenu` (revision_menu.dfy): derives the menu entries from a completed
  history query. Local modifications add a "Local" entry. Each non-null history
  item becomes a pair, and a failed or empty query gives "No revisions found".
- `HistoryQuery` (history_query.dfy): the picker's query lifecycle
  `NotQueried -> QueryInProgress -> Queried` as a transition system. Calls into the
  provider (execute, cancel) are emitted effects, and an operation's asynchronous
  completion is an explicit event.
- `EditorToolkit` (editor_toolkit.dfy): `MakeDiffMenu` with picker reuse, and the
  dispatch of a picked pair (`OnDiffRevisionPicked`) over abstract package-loading
  oracles.
- `DiffControl` (diff_control.dfy): the Defaults-panel control, which builds the
  property allow-lists and the difference tree (leaves, "no differences" row,
  Defaults category).
- `DataAssetDiff` (data_asset_diff.dfy): the diff window state and the arguments
  it is constructed with. Covers
  regenerating the difference lists, mode switching, closing on asset-editor
  requests, the view toggles and the window description.
- `AssetTypeActions` (asset_type_actions.dfy): `PerformAssetDiff`, with
  single-asset detection and the window title.
- `Names` (names.dfy): the engine's string equality, which ignores letter case.
  It decides whether two assets are "the same asset" and whether a revision id is HEAD.
- `Wrappers` and `Assets`: `Option`, and the opaque engine objects.

Foreign calls are parameters. The comparator's output (`FDetailsDiff::DiffAgainst`)
is an input sequence. Property resolution, package loading, `FindObject`, base
filename extraction and package filename lookup are function-typed oracles.
`FDateTime::Now()` is an opaque `now` argument.

Some behaviour of the code differs from what one might expect of a history picker. The model follows the code:
- The oldest history item is offered too, paired with the `InvalidRevision`
  sentinel. `[R3, R2, R1]` therefore gives three pairs, not two (`RevisionMenu.ThreeRevisionExample`).
- "Update History" is ignored while a query is in progress. Otherwise it starts a
  new operation. It never cancels a previous one, because none can be in flight then.
- A cancelled operation still completes. The menu then shows "No revisions found"
  and the state becomes `Queried`. It does not return to an earlier state.
- The diff widget is handed the two revision labels and a flag saying whether to
  show asset names, but it never reads them and has no member to keep them in.
  The single-asset test therefore decides only the window title
  (`DataAssetDiff.ConstructIgnoresLabels`).
- A previous side that cannot be loaded (including the sentinel) opens the
  candidate's editor instead of diffing. The pick fails with the "Unable to load"
  message only when the candidate cannot be loaded.

## Model

| member | source | states |
|---|---|---|
| `Names.Fold` | Source/AssetHistory/Private/FDataAssetTypeActions.cpp:15 | Folding keeps the length and lower-cases each ASCII letter in place, leaving every other character as it is. |
| `Names.SameNameIff` | Source/AssetHistory/Private/DataAssetDiff.cpp:322 | Two names compare equal iff they have the same length and agree at every position once letters are folded to lower case, as `FString ==` compares. |
| `Names.SameNameIsEquivalence` | Source/AssetHistory/Private/FDataAssetTypeActions.cpp:15 | The comparison is reflexive, symmetric and transitive, and exact equality implies it. |
| `Names.FoldIdempotent` | Source/AssetHistory/Private/FDataAssetTypeActions.cpp:15 | Folding twice is folding once, and a folded name is the same name as the original. |
| `Names.CaseOnlyDifference` | Source/AssetHistory/Private/PrimaryAssetEditorToolkit.cpp:387 | "MyData" and "Mydata" are the same name, and so are "head" and "HEAD", although they are different strings. The empty id is not HEAD. |
| `Revision.SentinelsCarryNoContent` | Source/AssetHistory/Public/PrimaryAssetEditorToolkit.h:12-20 | The sentinel and the Local pseudo-revision carry no content handle. Only the Local one is recognised as HEAD. Both keep changelist -1 and the default date. A record built from a history item always has a handle and never equals a sentinel. |
| `RevisionMenu.HistoryEntries` | Source/AssetHistory/Private/PrimaryAssetEditorToolkit.cpp:282-336 | The history loop adds exactly one entry per non-null history item, and every such entry is a selectable pair. |
| `RevisionMenu.RevisionMenuEntries` | Source/AssetHistory/Private/PrimaryAssetEditorToolkit.cpp:250-350 | A failed query, an invalid state or an empty history gives exactly one "No revisions found" entry, and only those cases do. Otherwise the count is (1 if modified) + (non-null items). The Local entry `(history[0] with its handle, HEAD)` is present iff the file is modified, and it can only be at position 0. |
| `RevisionMenu.HistoryEntryAt` | Source/AssetHistory/Private/PrimaryAssetEditorToolkit.cpp:307-325 | Non-null history item i yields the pair `(history[i+1], history[i])` when item i+1 exists and is non-null, and `(InvalidRevision, history[i])` otherwise. The entry sits after the entries of the newer non-null items. |
| `RevisionMenu.HistoryEntrySource` | Source/AssetHistory/Private/PrimaryAssetEditorToolkit.cpp:282-335 | Every history entry comes from a non-null history item. Null items produce nothing. |
| `RevisionMenu.HistoryEntriesOrdered` | Source/AssetHistory/Private/PrimaryAssetEditorToolkit.cpp:282-285 | Entries keep the newest-first order of the history. |
| `RevisionMenu.OldestPairsWithSentinel` | Source/AssetHistory/Private/PrimaryAssetEditorToolkit.cpp:312-323 | The oldest revision, when non-null, is the last entry and is paired with the sentinel. |
| `RevisionMenu.RevisionMenuEntryAt` | Source/AssetHistory/Private/PrimaryAssetEditorToolkit.cpp:262-336 | In the whole menu, each non-null item's pair follows the Local entry, if there is one. |
| `RevisionMenu.ThreeRevisionExample` | Source/AssetHistory/Private/PrimaryAssetEditorToolkit.cpp:262-336 | `[R3, R2, R1]` gives `(R2,R3), (R1,R2), (sentinel,R1)`, preceded by `(R3, HEAD)` when modified. |
| `HistoryQuery.Construct` | Source/AssetHistory/Private/PrimaryAssetEditorToolkit.cpp:111-177 | The picker starts NotQueried, showing only the progress bar. It executes one status update and becomes QueryInProgress only when given an asset. That first operation completes through the first-query handler, and it forces a history refresh iff the cached history size is 0. |
| `HistoryQuery.Complete` | Source/AssetHistory/Private/PrimaryAssetEditorToolkit.cpp:205-358 | Every completion clears the operation and sets Queried. The menu then holds the update section, the separator and exactly the new revision list, and the reachable-state invariant is kept. |
| `HistoryQuery.RefreshHistory` | Source/AssetHistory/Private/PrimaryAssetEditorToolkit.cpp:213-227 | "Update History" is a no-op while in progress. Otherwise it creates a new operation that forces a history update and completes through the update-history handler. It executes that operation on the same file name. It removes only the shown revision list, keeping the progress bar, the update section and the separator, and enters QueryInProgress. |
| `HistoryQuery.ControlsFollowState` | Source/AssetHistory/Private/PrimaryAssetEditorToolkit.cpp:97-202 | In reachable states, the progress bar and the update section are never visible together, and Cancel shows only during a query. The Cancel button (`CancelClicked`) reaches the provider iff a query is in progress. The destructor cancels iff a query is in progress, an operation is held and the provider can cancel it. Both cancel exactly the held operation. |
| `HistoryQuery.OneRevisionList` | Source/AssetHistory/Private/PrimaryAssetEditorToolkit.cpp:220-224 | Once queried, the menu shows exactly one revision list, in slot 3. |
| `HistoryQuery.RefreshLifecycle` | Source/AssetHistory/Private/PrimaryAssetEditorToolkit.cpp:162-357 | Open, complete, refresh, complete: the refresh uses a new, history-forcing operation on the same file, and the menu ends with the latest list only. |
| `EditorToolkit.OnDiffRevisionPicked` | Source/AssetHistory/Private/PrimaryAssetEditorToolkit.cpp:362-414 | The pick fails with "Unable to load" iff the candidate's package loads without the object, or fails to load for a non-HEAD candidate. When the candidate's package loads, the asset diffed or opened is the object found in that package. The live asset stands in only when it does not load and the candidate is HEAD (ignoring case). A diff happens iff the previous object is also found, with the previous item's label and either `{"HEAD", 0, now}` or the candidate item's label. |
| `EditorToolkit.SelectEntry` | Source/AssetHistory/Private/PrimaryAssetEditorToolkit.cpp:275-280 | Pair entries hand (previous, candidate) to the dispatcher in that order. "No revisions found" has no action. |
| `EditorToolkit.LocalEntryUsesLiveAsset` | Source/AssetHistory/Private/PrimaryAssetEditorToolkit.cpp:383-408 | The Local entry never fails to load. It diffs the newest revision against the live asset with the HEAD label, or opens the live asset's editor. |
| `EditorToolkit.SentinelPreviousNeverDiffs` | Source/AssetHistory/Private/PrimaryAssetEditorToolkit.cpp:370-408 | A pair whose previous side is the sentinel is never diffed. |
| `EditorToolkit.HeadIdIgnoresCase` | Source/AssetHistory/Private/PrimaryAssetEditorToolkit.cpp:387-401 | A candidate labelled "head" counts as HEAD. Without a content handle it still falls back to the live asset, and a diff gets the HEAD label. |
| `EditorToolkit.MissingHandleFails` | Source/AssetHistory/Private/PrimaryAssetEditorToolkit.cpp:383-390 | A non-HEAD candidate without a content handle always yields "Unable to load". |
| `EditorToolkit.HistoricDiffLabels` | Source/AssetHistory/Private/PrimaryAssetEditorToolkit.cpp:398-404 | A diff started from a history entry is labelled with exactly the two history items that entry pairs. |
| `EditorToolkit.MakeDiffMenu` | Source/AssetHistory/Private/PrimaryAssetEditorToolkit.cpp:57-83 | With source control off it shows "Source control is disabled". An existing picker is returned unchanged with no new query. With no picker yet, a picker is built iff the edited object is a primary data asset, and "Invalid object" is shown otherwise. A new picker is stored in the toolkit, shows only the progress bar and is in QueryInProgress. Its operation completes through the first-query handler. Exactly one query is executed, on that asset's package file, and it forces a history update iff the cached history is empty. |
| `EditorToolkit.PickerCompleted` | Source/AssetHistory/Private/PrimaryAssetEditorToolkit.cpp:351-357 | The completion advances the picker the toolkit holds, because the stored and the shown picker are one widget. It becomes Queried with the chrome and the new revision list, keeps its file name and operation counter, and the reachable-state invariant is kept. |
| `EditorToolkit.ReopenShowsCompletedPicker` | Source/AssetHistory/Private/PrimaryAssetEditorToolkit.cpp:61-67 | Opening the menu, completing its query and opening it again shows the finished list under the "Update History" section, with no second query. |
| `EditorToolkit.MakeDiffMenuReusesPicker` | Source/AssetHistory/Private/PrimaryAssetEditorToolkit.cpp:61-67 | Opening the menu twice shows the same widget and starts no second query. |
| `DiffControl.AllowList` | Source/AssetHistory/Private/DataAssetDiff.cpp:38-54 | A side's allow-list is exactly the set of differing identifiers resolved against that side's object, and it is no larger than the difference list. |
| `DiffControl.AllowListSize` | Source/AssetHistory/Private/DataAssetDiff.cpp:38-45 | When resolution is injective on the differing identifiers, the allow-list has one path per difference. |
| `DiffControl.MakeControl` | Source/AssetHistory/Private/DataAssetDiff.cpp:31-55 | The control keeps the comparator's output, and each details view is restricted by its own object's allow-list. |
| `DiffControl.Leaves` | Source/AssetHistory/Private/DataAssetDiff.cpp:59-66 | Each differing property yields exactly one leaf, in comparator order. |
| `DiffControl.GenerateTreeEntries` | Source/AssetHistory/Private/DataAssetDiff.cpp:98-116 | The leaves are appended to the real differences. Exactly one Defaults category is appended to the tree entries. Its has-differences flag is "children non-empty". Its children are the leaves, or the single NoDifferences row when there are none. |
| `DiffControl.FreshControlTree` | Source/AssetHistory/Private/DataAssetDiff.cpp:100-115 | For a fresh control, the category's children are exactly the real differences when anything differs, and NoDifferences is never a real difference. |
| `DataAssetDiff.GenerateDifferencesList` | Source/AssetHistory/Private/DataAssetDiff.cpp:396-413 | Regeneration replaces, and never extends, the tree list, the real differences and the panels. The tree is one "Defaults" category. The panels map holds only DefaultsMode, and `|RealDifferences| = |differences|` in comparator order. No other window state changes. |
| `DataAssetDiff.RegenerateIsIdempotent` | Source/AssetHistory/Private/DataAssetDiff.cpp:396-405 | Regenerating from the same comparator output twice gives the same window as once. |
| `DataAssetDiff.SetCurrentMode` | Source/AssetHistory/Private/DataAssetDiff.cpp:448-469 | Re-selecting the current mode changes nothing. Otherwise the mode becomes the new one and its panel is shown if it exists. A missing panel leaves the content as it was, and the graph toolbar is hidden. |
| `DataAssetDiff.ModeAndCloseSettle` | Source/AssetHistory/Private/DataAssetDiff.cpp:448-455 | Setting a mode twice is the same as once. Handling a close request twice is the same as once. |
| `DataAssetDiff.Construct` | Source/AssetHistory/Private/DataAssetDiff.cpp:119-275 | A new window has views locked and vertically split. Its real differences are one leaf per comparator difference, in order. Its tree is the single "Defaults" category over those leaves, or over "no differences". Its only panel is Defaults, built from a control over the two assets. It ends in DefaultsMode with that panel shown and the graph toolbar hidden. The close delegate is registered iff there is a parent window. Of the arguments, only the two assets are kept. |
| `DataAssetDiff.FreshWindowIsSettled` | Source/AssetHistory/Private/DataAssetDiff.cpp:171-275 | Regenerating a freshly constructed window's lists from the same comparator output, or focusing one of its differences, leaves it unchanged. Its category lists exactly its real differences when any exist. |
| `DataAssetDiff.FocusDifferenceSettles` | Source/AssetHistory/Private/DataAssetDiff.cpp:73-78 | Focusing twice is focusing once, and focusing leaves the tree list and the assets unchanged. |
| `DataAssetDiff.FocusDifference` | Source/AssetHistory/Private/DataAssetDiff.cpp:73-78 | Focusing a difference switches the window to DefaultsMode. Only the mode, the shown panel and the graph toolbar can change. The lists, panels, visibility, delegate and parent-close request are kept. |
| `DataAssetDiff.OnCloseAssetEditor` | Source/AssetHistory/Private/DataAssetDiff.cpp:287-304 | The window hides iff the closing asset is the old or the new asset, or every editor is closing. It then unregisters and asks a live parent to close. Nothing else in the window changes: the assets, toggles, lists, panels and mode are kept. Any other request changes nothing. |
| `DataAssetDiff.ToggleLockView` | Source/AssetHistory/Private/DataAssetDiff.cpp:371-374 | The lock flag flips and nothing else changes. |
| `DataAssetDiff.ToggleSplitViewMode` | Source/AssetHistory/Private/DataAssetDiff.cpp:376-384 | The split-mode flag flips and nothing else changes. |
| `DataAssetDiff.TogglesAreInvolutions` | Source/AssetHistory/Private/DataAssetDiff.cpp:371-379 | Applying either toggle twice is the identity. |
| `DataAssetDiff.CreateDiffWindow` | Source/AssetHistory/Private/DataAssetDiff.cpp:318-334 | The window is 1000x800 with the given title. Its widget gets a true ShowAssetNames argument iff the two names differ other than in letter case. The assets and revisions are passed as arguments, and the close delegate is registered. The content is exactly the widget Construct builds from those arguments and the comparator's output. So it is visible, locked, split vertically and in DefaultsMode with the Defaults panel shown, under one "Defaults" category. It lists one leaf per comparator difference, and its only panel, Defaults, restricts each side to that side's allow-list. |
| `DataAssetDiff.ConstructIgnoresLabels` | Source/AssetHistory/Private/DataAssetDiff.cpp:119-277 | The widget built does not depend on the revision labels or the ShowAssetNames argument, because Construct never reads them. |
| `AssetTypeActions.PerformAssetDiff` | Source/AssetHistory/Private/FDataAssetTypeActions.cpp:9-25 | Both inputs must be primary data assets. The title is the new asset's name when the names are equal ignoring case, and "Widget Blueprint Diff" otherwise. Assets and revisions are forwarded old then new, unchanged, into a 1000x800 window. The widget is told to show asset names iff the names differ ignoring case. Its content is the widget Construct builds, listing one leaf per comparator difference. |
| `AssetTypeActions.TitleAgreesWithNameDisplay` | Source/AssetHistory/Private/FDataAssetTypeActions.cpp:15-23 | A window titled with the asset's name passes a false ShowAssetNames argument. A window that passes a true one carries the default title. |
| `AssetTypeActions.CaseOnlyRenameIsSingleAsset` | Source/AssetHistory/Private/FDataAssetTypeActions.cpp:15-24 | Old name "MyData" and new name "Mydata" are diffed as one asset. The title is "Mydata" and the ShowAssetNames argument is false. |

## Left out

- Slate widget construction, toolbars, splitters, icons, tooltips, label text and localization are not modelled. They are presentation only. The menu is modelled as its list of slots and entries.
- `FDetailsDiff::DiffAgainst` is not modelled: it is engine code, and its output is an input sequence. `DiffTreeView` next/previous navigation (NextDiff, PrevDiff, HasNextDiff, HasPrevDiff) is left out for the same reason, so no navigation semantics are invented.
- The source-control module and provider, `LoadPackage`, `FindObject`, `FPaths` and `SourceControlHelpers::PackageFilename` are foreign calls. They appear as oracles or parameters. Whether the provider is enabled or available, and its cached history size, are arguments.
- Threading and delegate lifetimes are not modelled. A completion is a discrete event, and a completion arriving after the picker is destroyed is not modelled (the weak binding drops it).
- `FDateTime::Now()` is an opaque argument.
- `RevisionMenu.RevisionMenuEntries`: it requires a non-null history item 0 when the file is modified. The source reads that item for the Local entry without a null check, so a null item there is undefined behaviour in the source rather than a handled case.
- `DataAssetDiff.Construct`: the widget discards its OldRevision, NewRevision and ShowAssetNames arguments, so no revision label or asset name is shown. The model keeps them only on the window description as the values passed.
- `HistoryQuery.Construct`: the model assumes the provider never runs the completion callback inside `Execute`. Construct executes first and only then sets QueryInProgress, so a completion delivered inline would be overwritten. The picker would then be left in progress with no operation. The refresh action sets the state before executing, so it does not share this ordering.
- `Names.Fold`: only ASCII letters are folded. The engine's case-insensitive comparison of other letters is not modelled, and such characters are compared exactly.
- `HistoryQuery.Complete`: it requires a query in flight. The first handler asserts that the completed operation is the held one, and completions only follow executions.
- The `Prev = RevisionInfo` assignment at the end of each loop iteration is dead. `Prev` is re-declared at the top of every iteration, so it has no effect and is not modelled.
- `DataAssetDiff.SetCurrentMode`: the `ensureMsgf` diagnostic for a mode without a panel is not modelled. Only its effect (content unchanged) is.
- Module registration, the asset-type class query, `OpenAssetEditor` and the window's native parenting to an active modal window are engine wiring and are left out.

=== FILE: asset_type_actions.dfy ===
/** The asset-type action that opens a diff of two primary data assets
    (FDataAssetTypeActions::PerformAssetDiff). */
module AssetTypeActions {
  import opened Assets
  import opened Names
  import opened Revision
  import opened DataAssetDiff
  import opened DiffControl

  /** The title used when two different assets are compared. */
  const DefaultTitle := "Widget Blueprint Diff"

  /** PerformAssetDiff. Both assets must be primary data assets, since the casts are
      checked. The title is the new asset's name when both names agree ignoring case, and the
      default title otherwise. The assets and revisions are forwarded old first,
      unchanged, and the window lists the comparator's differences. */
  function PerformAssetDiff(oldAsset: Asset, newAsset: Asset, oldRevision: RevisionInfo, newRevision: RevisionInfo,
                            differing: seq<DiffEntry>, resolve: Resolver): (win: Window)
    requires oldAsset.isPrimaryDataAsset && newAsset.isPrimaryDataAsset
    ensures SameName(oldAsset.name, newAsset.name) ==> win.title == newAsset.name
    ensures !SameName(oldAsset.name, newAsset.name) ==> win.title == DefaultTitle
    ensures win.width == 1000 && win.height == 800
    ensures win.args.assetOld == oldAsset && win.args.assetNew == newAsset
    ensures win.args.showAssetNames <==> !SameName(oldAsset.name, newAsset.name)
    ensures win.content == Construct(win.args, differing, resolve)
    ensures win.content.assetOld == oldAsset && win.content.assetNew == newAsset
    ensures win.args.oldRevision == oldRevision && win.args.newRevision == newRevision
    ensures win.content.realDifferences == Leaves(differing)
  {
    var isSingleAsset := SameName(oldAsset.name, newAsset.name);
    var title := if isSingleAsset then newAsset.name else DefaultTitle;
    CreateDiffWindow(title, oldAsset, newAsset, oldRevision, newRevision, differing, resolve)
  }

  /** The title and the widget's ShowAssetNames argument come from the same test. A
      window that names its asset in the title was told to hide asset names, and
      one told to show them carries the default title. */
  lemma TitleAgreesWithNameDisplay(oldAsset: Asset, newAsset: Asset, oldRevision: RevisionInfo, newRevision: RevisionInfo,
                                   differing: seq<DiffEntry>, resolve: Resolver)
    requires oldAsset.isPrimaryDataAsset && newAsset.isPrimaryDataAsset
    ensures var win := PerformAssetDiff(oldAsset, newAsset, oldRevision, newRevision, differing, resolve);
      && (!win.args.showAssetNames ==> win.title == newAsset.name)
      && (win.args.showAssetNames ==> win.title == DefaultTitle)
  {
  }

  /** An asset renamed only in letter case between two revisions is still diffed as
      one asset: the window is titled with the new name, and the widget is told to
      hide asset names. */
  lemma CaseOnlyRenameIsSingleAsset(oldAsset: Asset, newAsset: Asset, oldRevision: RevisionInfo, newRevision: RevisionInfo,
                                    differing: seq<DiffEntry>, resolve: Resolver)
    requires oldAsset.isPrimaryDataAsset && newAsset.isPrimaryDataAsset
    requires oldAsset.name == "MyData" && newAsset.name == "Mydata"
    ensures var win := PerformAssetDiff(oldAsset, newAsset, oldRevision, newRevision, differing, resolve);
      win.title == "Mydata" && !win.args.showAssetNames
  {
    CaseOnlyDifference();
  }
}

=== FILE: assets.dfy ===
/** Engine objects the plugin handles without looking inside them. */
module Assets {

  /** A UObject as the plugin sees it. An `Asset` value is the object itself: two
      values are equal exactly when they denote the same object, which is how the
      plugin compares object pointers. `id` tells objects apart, `name` is what
      GetName returns and `path` is what GetPathName returns. `isPrimaryDataAsset`
      records whether a cast to UPrimaryDataAsset would succeed. */
  datatype Asset = Asset(id: nat, name: string, path: string, isPrimaryDataAsset: bool)

  /** A package that LoadPackage returned, named by the file it was loaded from. */
  datatype Package = Package(name: string)
}

=== FILE: data_asset_diff.dfy ===
/** The diff window's state (SDataAssetDiff): the differences it lists, its mode
    panels, its view toggles and its reaction to asset editors closing. */
module DataAssetDiff {
  import opened Wrappers
  import opened Assets
  import opened Names
  import opened Revision
  import opened DiffControl

  /** An FName naming a diff view mode. */
  datatype Mode = Mode(name: string)

  /** NAME_None, the mode of a freshly constructed window. */
  const NoMode := Mode("None")

  /** The one mode this window supports. */
  const DefaultsMode := Mode("DefaultsMode")

  /** EAssetEditorCloseReason. */
  datatype CloseReason =
    | CloseAllEditorsForAsset
    | CloseOtherEditors
    | RemoveAssetFromAllEditors
    | CloseAllAssetEditors
    | AssetEditorHostClosed
    | AssetUnloadingOrInvalid
    | EditorRefreshRequested

  /** The widget's construction arguments (SDataAssetDiff's FArguments): the two
      assets, their revision labels, whether to show asset names, and whether a
      parent window is given. */
  datatype DiffArgs = DiffArgs(
    assetOld: Asset,
    assetNew: Asset,
    oldRevision: RevisionInfo,
    newRevision: RevisionInfo,
    showAssetNames: bool,
    hasParent: bool)

  /** The window's state. Only the two assets are kept from the arguments: the
      widget has no member for the revision labels or the name flag, and it never
      reads them. `panels` holds each mode's diff control. `shownPanel` is
      the mode whose panel fills the content box. `listening` says whether the close
      delegate is registered. `parentAlive` says whether the weak parent window
      still resolves, and `destroyRequested` whether the parent window was asked
      to close. */
  datatype DiffWindow = DiffWindow(
    assetOld: Asset,
    assetNew: Asset,
    lockViews: bool,
    verticalSplit: bool,
    currentMode: Mode,
    shownPanel: Option<Mode>,
    masterDifferences: seq<TreeEntry>,
    realDifferences: seq<TreeEntry>,
    panels: map<Mode, Control>,
    graphToolbarVisible: bool,
    visible: bool,
    listening: bool,
    parentAlive: bool,
    destroyRequested: bool)

  /** GenerateDifferencesList, given the comparator's output for the window's two
      assets. It empties the tree list, the real differences and the panels. Then it
      builds the Defaults panel from a fresh control over that output. */
  function GenerateDifferencesList(w: DiffWindow, differing: seq<DiffEntry>, resolve: Resolver): (r: DiffWindow)
    ensures r.panels.Keys == {DefaultsMode}
    ensures r.panels[DefaultsMode].differing == differing
    ensures r.panels[DefaultsMode].oldAllowList == AllowList(differing, w.assetOld, resolve)
    ensures r.panels[DefaultsMode].newAllowList == AllowList(differing, w.assetNew, resolve)
    ensures r.realDifferences == Leaves(differing)
    ensures |r.realDifferences| == |differing|
    ensures forall i :: 0 <= i < |differing| ==> r.realDifferences[i] == Difference(differing[i])
    ensures |r.masterDifferences| == 1 && r.masterDifferences[0].Category?
    ensures r.masterDifferences[0].title == DefaultsLabel
    ensures r.masterDifferences[0].hasDifferences == (|differing| != 0)
    ensures |differing| == 0 ==> r.masterDifferences[0].children == [NoDifferences]
    ensures |differing| != 0 ==> r.masterDifferences[0].children == r.realDifferences
    ensures r == w.(masterDifferences := r.masterDifferences, realDifferences := r.realDifferences, panels := r.panels)
  {
    var control := MakeControl(w.assetOld, w.assetNew, differing, resolve);
    var g := GenerateTreeEntries(control, [], []);
    w.(masterDifferences := g.treeEntries, realDifferences := g.realDifferences, panels := map[DefaultsMode := g.control])
  }

  /** SetCurrentMode. Asking for the current mode changes nothing. Otherwise the
      mode becomes the new one. Its panel is shown if the window has one, and if it
      has none the shown panel stays as it was. The graph toolbar is hidden. */
  function SetCurrentMode(w: DiffWindow, mode: Mode): (r: DiffWindow)
    ensures mode == w.currentMode ==> r == w
    ensures mode != w.currentMode ==>
      && r.currentMode == mode
      && r.shownPanel == (if mode in w.panels then Some(mode) else w.shownPanel)
      && !r.graphToolbarVisible
      && r == w.(currentMode := mode, shownPanel := r.shownPanel, graphToolbarVisible := false)
  {
    if mode == w.currentMode then w
    else
      var shown := if mode in w.panels then Some(mode) else w.shownPanel;
      w.(currentMode := mode, shownPanel := shown, graphToolbarVisible := false)
  }

  /** Construct. Views start locked and split vertically. The differences are
      generated, and the window switches to the Defaults mode. The close delegate is
      registered only when a parent window is given. The revision labels and the
      name flag among the arguments are not used. */
  function Construct(args: DiffArgs, differing: seq<DiffEntry>, resolve: Resolver): (w: DiffWindow)
    ensures w.assetOld == args.assetOld && w.assetNew == args.assetNew
    ensures w.lockViews && w.verticalSplit && w.visible && !w.destroyRequested
    ensures w.listening == args.hasParent
    ensures w.parentAlive == args.hasParent
    ensures w.currentMode == DefaultsMode && w.shownPanel == Some(DefaultsMode) && !w.graphToolbarVisible
    ensures w.realDifferences == Leaves(differing)
    ensures w.panels.Keys == {DefaultsMode}
    ensures w.panels[DefaultsMode] == MakeControl(args.assetOld, args.assetNew, differing, resolve).(children := w.panels[DefaultsMode].children)
    ensures |w.masterDifferences| == 1 && w.masterDifferences[0].Category?
    ensures w.masterDifferences[0].title == DefaultsLabel
    ensures w.masterDifferences[0].hasDifferences == (|differing| != 0)
    ensures w.masterDifferences[0].children == (if |differing| == 0 then [NoDifferences] else Leaves(differing))
  {
    var blank := DiffWindow(args.assetOld, args.assetNew, true, true, NoMode, None, [], [], map[], true, true,
                            args.hasParent, args.hasParent, false);
    SetCurrentMode(GenerateDifferencesList(blank, differing, resolve), DefaultsMode)
  }

  /** Focusing a difference leaf first runs the control's selection callback,
      which switches the window to the Defaults mode. */
  function FocusDifference(w: DiffWindow): (r: DiffWindow)
    ensures r.currentMode == DefaultsMode
    ensures DefaultsMode in w.panels ==> r.shownPanel == Some(DefaultsMode) || w.currentMode == DefaultsMode
    ensures r.realDifferences == w.realDifferences && r.panels == w.panels
    ensures r == w.(currentMode := r.currentMode, shownPanel := r.shownPanel, graphToolbarVisible := r.graphToolbarVisible)
  {
    SetCurrentMode(w, DefaultsMode)
  }

  /** OnCloseAssetEditor. When the closing asset is one of the two compared assets,
      or every asset editor is closing, the window hides and unregisters its
      delegate, and it asks a live parent window to close. Any other request
      changes nothing. */
  function OnCloseAssetEditor(w: DiffWindow, asset: Asset, reason: CloseReason): (r: DiffWindow)
    ensures !r.visible <==> (asset == w.assetOld || asset == w.assetNew || reason == CloseAllAssetEditors || !w.visible)
    ensures !(asset == w.assetOld || asset == w.assetNew || reason == CloseAllAssetEditors) ==> r == w
    ensures asset == w.assetOld || asset == w.assetNew || reason == CloseAllAssetEditors ==>
      && !r.listening
      && r.destroyRequested == (w.destroyRequested || w.parentAlive)
      && r == w.(visible := false, listening := false, destroyRequested := r.destroyRequested)
  {
    if asset == w.assetOld || asset == w.assetNew || reason == CloseAllAssetEditors then
      w.(visible := false, listening := false, destroyRequested := w.destroyRequested || w.parentAlive)
    else w
  }

  /** OnToggleLockView. */
  function ToggleLockView(w: DiffWindow): (r: DiffWindow)
    ensures r.lockViews != w.lockViews
    ensures r.(lockViews := w.lockViews) == w
  {
    w.(lockViews := !w.lockViews)
  }

  /** OnToggleSplitViewMode. */
  function ToggleSplitViewMode(w: DiffWindow): (r: DiffWindow)
    ensures r.verticalSplit != w.verticalSplit
    ensures r.(verticalSplit := w.verticalSplit) == w
  {
    w.(verticalSplit := !w.verticalSplit)
  }

  /** Regenerating from the same comparator output gives the same lists and panels,
      because every list is emptied before it is rebuilt. */
  lemma RegenerateIsIdempotent(w: DiffWindow, differing: seq<DiffEntry>, resolve: Resolver)
    ensures GenerateDifferencesList(GenerateDifferencesList(w, differing, resolve), differing, resolve)
         == GenerateDifferencesList(w, differing, resolve)
  {
    var once := GenerateDifferencesList(w, differing, resolve);
    var twice := GenerateDifferencesList(once, differing, resolve);
    assert once.assetOld == w.assetOld && once.assetNew == w.assetNew;
    assert twice.masterDifferences == once.masterDifferences;
    assert twice.realDifferences == once.realDifferences;
    assert twice.panels == once.panels;
  }

  /** Re-selecting the mode just selected changes nothing. Handling the same close
      request twice leaves the window as the first handling left it. */
  lemma ModeAndCloseSettle(w: DiffWindow, mode: Mode, asset: Asset, reason: CloseReason)
    ensures SetCurrentMode(SetCurrentMode(w, mode), mode) == SetCurrentMode(w, mode)
    ensures OnCloseAssetEditor(OnCloseAssetEditor(w, asset, reason), asset, reason) == OnCloseAssetEditor(w, asset, reason)
  {
  }

  /** Each view toggle undoes itself. */
  lemma TogglesAreInvolutions(w: DiffWindow)
    ensures ToggleLockView(ToggleLockView(w)) == w
    ensures ToggleSplitViewMode(ToggleSplitViewMode(w)) == w
  {
  }

  /** A freshly constructed window is already settled: regenerating its lists from
      the same comparator output, or focusing one of its differences, leaves it as
      it is. Its real differences are the comparator's leaves, and its tree shows
      them under the one Defaults category. */
  lemma FreshWindowIsSettled(args: DiffArgs, differing: seq<DiffEntry>, resolve: Resolver)
    ensures var w := Construct(args, differing, resolve);
      && GenerateDifferencesList(w, differing, resolve) == w
      && FocusDifference(w) == w
      && (|differing| != 0 ==> w.masterDifferences[0].children == w.realDifferences)
  {
    var w := Construct(args, differing, resolve);
    var again := GenerateDifferencesList(w, differing, resolve);
    assert again.masterDifferences == w.masterDifferences;
    assert again.panels == w.panels;
  }

  /** Focusing one difference after another ends where focusing the last one does,
      and focusing never touches the lists, the panels or the assets. */
  lemma FocusDifferenceSettles(w: DiffWindow)
    ensures FocusDifference(FocusDifference(w)) == FocusDifference(w)
    ensures var r := FocusDifference(w);
      r.masterDifferences == w.masterDifferences && r.assetOld == w.assetOld && r.assetNew == w.assetNew
  {
  }

  /** The widget's appearance does not depend on the revision labels or on the
      name flag it is given: constructing with any other values of those arguments
      yields the same window. */
  lemma ConstructIgnoresLabels(args: DiffArgs, oldRevision: RevisionInfo, newRevision: RevisionInfo,
                               showAssetNames: bool, differing: seq<DiffEntry>, resolve: Resolver)
    ensures Construct(args.(oldRevision := oldRevision, newRevision := newRevision, showAssetNames := showAssetNames), differing, resolve)
         == Construct(args, differing, resolve)
  {
  }

  /** The window description CreateDiffWindow produces: the title, the client size,
      the arguments the diff widget was constructed with and the widget as content. */
  datatype Window = Window(title: string, width: int, height: int, args: DiffArgs, content: DiffWindow)

  /** CreateDiffWindow. The comparison is of a single asset when both names are the
      same ignoring case, and only then is the widget told to hide asset names. The
      window owns the widget as its parent, so the close delegate is registered.
      The widget lists the comparator's differences between the two assets. */
  function CreateDiffWindow(title: string, assetOld: Asset, assetNew: Asset,
                            oldRevision: RevisionInfo, newRevision: RevisionInfo,
                            differing: seq<DiffEntry>, resolve: Resolver): (win: Window)
    ensures win.title == title && win.width == 1000 && win.height == 800
    ensures win.args.showAssetNames <==> !SameName(assetOld.name, assetNew.name)
    ensures win.args.assetOld == assetOld && win.args.assetNew == assetNew
    ensures win.args.oldRevision == oldRevision && win.args.newRevision == newRevision && win.args.hasParent
    ensures win.content == Construct(win.args, differing, resolve)
    ensures win.content.assetOld == assetOld && win.content.assetNew == assetNew
    ensures win.content.listening && win.content.currentMode == DefaultsMode
    ensures win.content.realDifferences == Leaves(differing)
    ensures win.content.panels.Keys == {DefaultsMode}
    ensures win.content.panels[DefaultsMode].oldAllowList == AllowList(differing, assetOld, resolve)
    ensures win.content.panels[DefaultsMode].newAllowList == AllowList(differing, assetNew, resolve)
  {
    var isSingleAsset := SameName(assetNew.name, assetOld.name);
    var args := DiffArgs(assetOld, assetNew, oldRevision, newRevision, !isSingleAsset, true);
    Window(title, 1000, 800, args, Construct(args, differing, resolve))
  }
}

=== FILE: diff_control.dfy ===
/** The Defaults-panel diff control (FDetailsDiffControl and FCDODiffControl). It
    takes the comparator's differing properties, restricts each side's details
    view to them, and builds the difference tree. */
module DiffControl {
  import opened Assets

  /** FPropertySoftPath: a property's identity by field names, independent of any
      object instance. */
  datatype PropertySoftPath = PropertySoftPath(names: seq<string>)

  /** EPropertyDiffType. */
  datatype PropertyDiffType = PropertyAddedToA | PropertyAddedToB | PropertyValueChanged

  /** FSingleObjectDiffEntry: one differing property, as the comparator reports it. */
  datatype DiffEntry = DiffEntry(identifier: PropertySoftPath, diffType: PropertyDiffType)

  /** FPropertyPath: a property resolved against a concrete object. The chain is
      empty when the property does not resolve. */
  datatype PropertyPath = PropertyPath(chain: seq<string>)

  /** FPropertySoftPath::ResolvePath, as an oracle: a soft path resolved against an object. */
  type Resolver = (PropertySoftPath, Asset) -> PropertyPath

  /** FBlueprintDifferenceTreeEntry, by what it shows. A Difference is a leaf for one
      differing property. NoDifferences is the informational "no differences" row.
      A Category groups children under a label and says whether any of them differ. */
  datatype TreeEntry =
    | Difference(entry: DiffEntry)
    | NoDifferences
    | Category(title: string, children: seq<TreeEntry>, hasDifferences: bool)

  /** The label of the one category this control contributes. */
  const DefaultsLabel := "Defaults"

  /** A constructed control: the comparator's differing properties and the two
      details views' property allow-lists. `children` are the tree entries it has
      generated so far. */
  datatype Control = Control(
    differing: seq<DiffEntry>,
    oldAllowList: set<PropertyPath>,
    newAllowList: set<PropertyPath>,
    children: seq<TreeEntry>)

  /** The allow-list for one side: every differing identifier resolved against that
      side's object, collected into a set. */
  function AllowList(differing: seq<DiffEntry>, side: Asset, resolve: Resolver): (paths: set<PropertyPath>)
    ensures paths == set d | d in differing :: resolve(d.identifier, side)
    ensures |paths| <= |differing|
  {
    if |differing| == 0 then {}
    else
      var rest := AllowList(differing[1..], side, resolve);
      assert forall d :: d in differing[1..] ==> d in differing;
      assert forall d :: d in differing ==> d == differing[0] || d in differing[1..];
      {resolve(differing[0].identifier, side)} + rest
  }

  /** The control's constructor. It records the comparator's output and sets each
      details view's allow-list from its own object. */
  function MakeControl(oldObject: Asset, newObject: Asset, differing: seq<DiffEntry>,
                       resolve: Resolver): (c: Control)
    ensures c.differing == differing && c.children == []
    ensures c.oldAllowList == AllowList(differing, oldObject, resolve)
    ensures c.newAllowList == AllowList(differing, newObject, resolve)
  {
    Control(differing, AllowList(differing, oldObject, resolve), AllowList(differing, newObject, resolve), [])
  }

  /** The leaves for the differing properties, one per property, in comparator order. */
  function Leaves(differing: seq<DiffEntry>): (leaves: seq<TreeEntry>)
    ensures |leaves| == |differing|
    ensures forall i :: 0 <= i < |differing| ==> leaves[i] == Difference(differing[i])
  {
    if |differing| == 0 then [] else [Difference(differing[0])] + Leaves(differing[1..])
  }

  /** The result of generating tree entries: the control with its new children, and
      the two output lists after appending. */
  datatype Generated = Generated(control: Control, treeEntries: seq<TreeEntry>, realDifferences: seq<TreeEntry>)

  /** FCDODiffControl::GenerateTreeEntries. Each differing property's leaf goes both
      to the control's children and to the real differences. An empty child list
      gets the single NoDifferences row. One Defaults category holding the children
      is then appended to the tree entries. */
  function GenerateTreeEntries(c: Control, treeEntries: seq<TreeEntry>, realDifferences: seq<TreeEntry>): (g: Generated)
    ensures g.realDifferences == realDifferences + Leaves(c.differing)
    ensures |g.treeEntries| == |treeEntries| + 1 && g.treeEntries[..|treeEntries|] == treeEntries
    ensures var category := g.treeEntries[|treeEntries|];
      && category.Category?
      && category.title == DefaultsLabel
      && category.children == g.control.children
      && category.hasDifferences == (|c.children| + |c.differing| != 0)
      && (category.hasDifferences ==> category.children == c.children + Leaves(c.differing))
      && (!category.hasDifferences ==> category.children == [NoDifferences])
    ensures g.control.differing == c.differing
    ensures g.control.oldAllowList == c.oldAllowList && g.control.newAllowList == c.newAllowList
  {
    var leaves := Leaves(c.differing);
    var children := c.children + leaves;
    var hasDifferences := |children| != 0;
    var shown := if hasDifferences then children else [NoDifferences];
    var appended := realDifferences + leaves;
    Generated(c.(children := shown), treeEntries + [Category(DefaultsLabel, shown, hasDifferences)], appended)
  }

  /** For a fresh control, the real differences are exactly the category's children
      when anything differs. The NoDifferences row is never a real difference. */
  lemma FreshControlTree(c: Control)
    requires c.children == []
    ensures var g := GenerateTreeEntries(c, [], []);
      && g.treeEntries == [Category(DefaultsLabel, if |c.differing| == 0 then [NoDifferences] else g.realDifferences, |c.differing| != 0)]
      && NoDifferences !in g.realDifferences
      && |g.realDifferences| == |c.differing|
  {
    var g := GenerateTreeEntries(c, [], []);
    assert forall i :: 0 <= i < |g.realDifferences| ==> g.realDifferences[i].Difference?;
    assert g.realDifferences[0..] == g.realDifferences;
  }

  /** Two identifiers that resolve to the same path on one side give a single
      allow-list entry, so that side's list can be shorter than the difference list.
      With an injective resolution it has one entry per distinct identifier. */
  lemma {:induction false} AllowListSize(differing: seq<DiffEntry>, side: Asset, resolve: Resolver)
    requires forall i, j :: 0 <= i < j < |differing| ==>
      resolve(differing[i].identifier, side) != resolve(differing[j].identifier, side)
    ensures |AllowList(differing, side, resolve)| == |differing|
    decreases |differing|
  {
    if |differing| > 0 {
      var rest := differing[1..];
      AllowListSize(rest, side, resolve);
      assert resolve(differing[0].identifier, side) !in AllowList(rest, side, resolve);
    }
  }
}

=== FILE: editor_toolkit.dfy ===
/** The asset editor's "History" toolbar menu (MakeDiffMenu) and what happens when
    a revision pair is picked (OnDiffRevisionPicked). */
module EditorToolkit {
  import opened Wrappers
  import opened Assets
  import opened Names
  import opened Revision
  import opened RevisionMenu
  import HistoryQuery

  /** Engine services that the dispatcher calls, as oracles. `loadPackage` covers
      fetching a revision through its content handle and then LoadPackage.
      `findObject` is FindObject inside a loaded package, and it yields None for a
      missing or invalid object. `baseFilename` is FPaths::GetBaseFilename. */
  datatype Loader = Loader(
    loadPackage: SourceRevision -> Option<Package>,
    findObject: (Package, string) -> Option<Asset>,
    baseFilename: string -> string)

  /** What the pick leads to. DiffAssets opens a diff of the two assets with these
      revision labels, OpenEditor opens a plain editor, and UnableToLoad shows the
      "Unable to load assets to diff" message. */
  datatype DiffAction =
    | DiffAssets(oldAsset: Asset, newAsset: Asset, oldRevision: RevisionInfo, newRevision: RevisionInfo)
    | OpenEditor(asset: Asset)
    | UnableToLoad

  /** The package behind a record. A record without a content handle yields no
      package, because its package name stays empty. */
  function PackageOf(e: RevisionInfoExtended, loader: Loader): Option<Package> {
    match e.data
    case None => None
    case Some(r) => loader.loadPackage(r)
  }

  /** The object of the given name inside a record's package, if the package loads
      and holds a valid object of that name. */
  function FoundIn(e: RevisionInfoExtended, name: string, loader: Loader): Option<Asset> {
    match PackageOf(e, loader)
    case Some(p) => loader.findObject(p, name)
    case None => None
  }

  /** The object name searched in both packages. It comes from the candidate's file
      when the candidate has a content handle, and from the live asset's path otherwise. */
  function AssetNameFor(candidate: RevisionInfoExtended, live: Asset, loader: Loader): string {
    match candidate.data
    case Some(r) => loader.baseFilename(r.filename)
    case None => loader.baseFilename(live.path)
  }

  /** The revision label the diff shows for the local state. */
  function HeadRevisionInfo(now: DateTime): RevisionInfo {
    RevisionInfo(HeadId, 0, now)
  }

  /** OnDiffRevisionPicked. The candidate asset is looked up in its loaded package.
      When that package does not load and the candidate is HEAD, the live asset is
      used. With both assets present the pair is diffed, with the HEAD label for a
      HEAD candidate. With only the candidate present its editor is opened.
      Without a candidate the pick fails with a message. */
  function OnDiffRevisionPicked(previous: RevisionInfoExtended, candidate: RevisionInfoExtended,
                                live: Asset, loader: Loader, now: DateTime): (a: DiffAction)
    ensures a.UnableToLoad? <==>
      || (PackageOf(candidate, loader).None? && !IsHead(candidate))
      || (PackageOf(candidate, loader).Some? && FoundIn(candidate, AssetNameFor(candidate, live, loader), loader).None?)
    ensures (a.OpenEditor? || a.DiffAssets?) && PackageOf(candidate, loader).Some? ==>
      Some(if a.OpenEditor? then a.asset else a.newAsset) == FoundIn(candidate, AssetNameFor(candidate, live, loader), loader)
    ensures (a.OpenEditor? || a.DiffAssets?) && PackageOf(candidate, loader).None? ==>
      IsHead(candidate) && (if a.OpenEditor? then a.asset else a.newAsset) == live
    ensures a.DiffAssets? <==> !a.UnableToLoad? && FoundIn(previous, AssetNameFor(candidate, live, loader), loader).Some?
    ensures a.DiffAssets? ==>
      && previous.data.Some?
      && a.oldRevision == InfoOf(previous.data.value)
      && Some(a.oldAsset) == FoundIn(previous, AssetNameFor(candidate, live, loader), loader)
      && (IsHead(candidate) ==> a.newRevision == HeadRevisionInfo(now))
      && (!IsHead(candidate) ==> candidate.data.Some? && a.newRevision == InfoOf(candidate.data.value))
  {
    var name := AssetNameFor(candidate, live, loader);
    var previousAsset := match PackageOf(previous, loader)
      case Some(p) => loader.findObject(p, name)
      case None => None;
    var asset := match PackageOf(candidate, loader)
      case Some(p) => loader.findObject(p, name)
      case None => if IsHead(candidate) then Some(live) else None;
    match asset
    case None => UnableToLoad
    case Some(newAsset) =>
      match previousAsset
      case None => OpenEditor(newAsset)
      case Some(oldAsset) =>
        var oldRevision := InfoOf(previous.data.value);
        var newRevision := if IsHead(candidate) then HeadRevisionInfo(now) else InfoOf(candidate.data.value);
        DiffAssets(oldAsset, newAsset, oldRevision, newRevision)
  }

  /** Activating a menu entry: a pair entry hands (previous, candidate), in that
      order, to OnDiffRevisionPicked bound to the edited asset. "No revisions found"
      has no action. */
  function SelectEntry(entry: MenuEntry, live: Asset, loader: Loader, now: DateTime): (a: Option<DiffAction>)
    ensures a.None? <==> entry.NoRevisionsFound?
    ensures a.Some? ==> a.value == OnDiffRevisionPicked(entry.pair.previous, entry.pair.candidate, live, loader, now)
  {
    match entry
    case NoRevisionsFound => None
    case Local(pair) => Some(OnDiffRevisionPicked(pair.previous, pair.candidate, live, loader, now))
    case Historic(pair) => Some(OnDiffRevisionPicked(pair.previous, pair.candidate, live, loader, now))
  }

  /** The Local entry never fails to load. It diffs the newest revision against the
      live asset, labelled HEAD, when the newest revision's package holds the asset.
      Otherwise it opens the live asset's editor. */
  lemma LocalEntryUsesLiveAsset(history: seq<Option<SourceRevision>>, live: Asset, loader: Loader, now: DateTime)
    requires |history| > 0 && history[0].Some?
    ensures var a := SelectEntry(LocalEntry(history), live, loader, now).value;
      var p := loader.loadPackage(history[0].value);
      var found := if p.Some? then loader.findObject(p.value, loader.baseFilename(live.path)) else None;
      && (found.Some? ==> a == DiffAssets(found.value, live, InfoOf(history[0].value), HeadRevisionInfo(now)))
      && (found.None? ==> a == OpenEditor(live))
  {
  }

  /** A pair whose previous side is the sentinel is never diffed. It opens the
      candidate's editor, or fails when the candidate cannot be loaded. */
  lemma SentinelPreviousNeverDiffs(candidate: RevisionInfoExtended, live: Asset, loader: Loader, now: DateTime)
    ensures !OnDiffRevisionPicked(InvalidRevision, candidate, live, loader, now).DiffAssets?
  {
  }

  /** The HEAD id is recognised whatever its letter case. A candidate labelled
      "head" without a content handle still falls back to the live asset. */
  lemma HeadIdIgnoresCase(previous: RevisionInfoExtended, candidate: RevisionInfoExtended,
                          live: Asset, loader: Loader, now: DateTime)
    requires candidate.info.revision == "head" && candidate.data.None?
    ensures IsHead(candidate)
    ensures var a := OnDiffRevisionPicked(previous, candidate, live, loader, now);
      && !a.UnableToLoad?
      && (if a.OpenEditor? then a.asset else a.newAsset) == live
      && (a.DiffAssets? ==> a.newRevision == HeadRevisionInfo(now))
  {
    CaseOnlyDifference();
  }

  /** A non-HEAD candidate without a content handle cannot be loaded. */
  lemma MissingHandleFails(previous: RevisionInfoExtended, candidate: RevisionInfoExtended, live: Asset, loader: Loader, now: DateTime)
    requires candidate.data.None? && !IsHead(candidate)
    ensures OnDiffRevisionPicked(previous, candidate, live, loader, now) == UnableToLoad
  {
  }

  /** A diff started from a historic entry whose previous item is non-null is
      labelled with exactly the two history items the entry pairs. */
  lemma HistoricDiffLabels(result: CommandResult, state: Option<ControlState>, i: nat,
                           live: Asset, loader: Loader, now: DateTime)
    requires HeadItemPresent(result, state) && HasHistory(result, state)
    requires i + 1 < |state.value.history| && state.value.history[i].Some? && state.value.history[i + 1].Some?
    requires !SameName(state.value.history[i].value.revision, HeadId)
    ensures var entries := RevisionMenuEntries(result, state);
      var k := LocalOffset(state.value) + CountValid(state.value.history[..i]);
      && k < |entries|
      && var a := SelectEntry(entries[k], live, loader, now).value;
         a.DiffAssets? ==>
           a.oldRevision == InfoOf(state.value.history[i + 1].value) && a.newRevision == InfoOf(state.value.history[i].value)
  {
    RevisionMenuEntryAt(result, state, i);
  }

  /** The editor's record of its history picker (RevisionPicker). */
  datatype Toolkit = Toolkit(editing: Option<Asset>, picker: Option<HistoryQuery.Menu>)

  /** The widget the "History" combo button shows. */
  datatype MenuWidget = Picker(menu: HistoryQuery.Menu) | InvalidObject | SourceControlDisabled

  /** MakeDiffMenu's result: the updated toolkit, the widget, and the provider calls made. */
  datatype MenuOpen = MenuOpen(toolkit: Toolkit, widget: MenuWidget, effects: seq<HistoryQuery.Effect>)

  /** MakeDiffMenu. Without an enabled and available provider it shows "Source
      control is disabled". With one it shows the existing picker when there is one.
      Otherwise it builds a picker for the edited primary data asset (starting its
      query) or shows "Invalid object". */
  function MakeDiffMenu(t: Toolkit, enabled: bool, available: bool,
                        packageFilename: string -> string, cachedHistorySize: nat): (r: MenuOpen)
    ensures !(enabled && available) ==> r == MenuOpen(t, SourceControlDisabled, [])
    ensures enabled && available && t.picker.Some? ==> r == MenuOpen(t, Picker(t.picker.value), [])
    ensures r.widget.Picker? ==> r.toolkit.picker == Some(r.widget.menu)
    ensures enabled && available && t.picker.None? ==>
      (r.widget.Picker? <==> t.editing.Some? && t.editing.value.isPrimaryDataAsset)
    ensures enabled && available && t.picker.None? && !r.widget.Picker? ==> r == MenuOpen(t, InvalidObject, [])
    ensures r.widget.Picker? && t.picker.None? ==>
      && t.editing.Some? && t.editing.value.isPrimaryDataAsset
      && HistoryQuery.Valid(r.widget.menu)
      && r.toolkit == t.(picker := Some(r.widget.menu))
      && r.widget.menu.filename == packageFilename(t.editing.value.path)
      && r.widget.menu.state == HistoryQuery.QueryInProgress
      && r.widget.menu.slots == [HistoryQuery.InProgressBar]
      && r.widget.menu.op.Some?
      && r.widget.menu.op.value.handler == HistoryQuery.QueryComplete
      && (r.widget.menu.op.value.updateHistory <==> cachedHistorySize == 0)
      && r.effects == [HistoryQuery.Execute(r.widget.menu.op.value, r.widget.menu.filename)]
    ensures r.effects != [] ==> t.picker.None? && r.widget.Picker? && r.widget.menu.state == HistoryQuery.QueryInProgress
  {
    if !(enabled && available) then MenuOpen(t, SourceControlDisabled, [])
    else if t.picker.Some? then MenuOpen(t, Picker(t.picker.value), [])
    else if t.editing.Some? && t.editing.value.isPrimaryDataAsset then
      var step := HistoryQuery.Construct(Some(t.editing.value.path), packageFilename, cachedHistorySize);
      MenuOpen(t.(picker := Some(step.menu)), Picker(step.menu), step.effects)
    else MenuOpen(t, InvalidObject, [])
  }

  /** Opening the menu again reuses what the first opening produced. It shows the
      same widget and starts no second query. */
  lemma MakeDiffMenuReusesPicker(t: Toolkit, enabled: bool, available: bool,
                                 packageFilename: string -> string, size1: nat, size2: nat)
    ensures var first := MakeDiffMenu(t, enabled, available, packageFilename, size1);
      var second := MakeDiffMenu(first.toolkit, enabled, available, packageFilename, size2);
      second.toolkit == first.toolkit && second.widget == first.widget && second.effects == []
  {
  }

  /** The stored picker and the shown one are the same widget, so the completion of
      its query advances the picker the toolkit holds. */
  function PickerCompleted(t: Toolkit, result: CommandResult, cached: Option<ControlState>): (r: Toolkit)
    requires t.picker.Some? && HistoryQuery.Valid(t.picker.value) && t.picker.value.state == HistoryQuery.QueryInProgress
    requires HeadItemPresent(result, cached)
    ensures r.editing == t.editing && r.picker.Some?
    ensures r.picker.value.filename == t.picker.value.filename && r.picker.value.nextOpId == t.picker.value.nextOpId
    ensures HistoryQuery.Valid(r.picker.value) && r.picker.value.state == HistoryQuery.Queried
    ensures r.picker.value.slots == HistoryQuery.Chrome + [HistoryQuery.Revisions(RevisionMenuEntries(result, cached))]
  {
    t.(picker := Some(HistoryQuery.Complete(t.picker.value, result, cached)))
  }

  /** Opening the menu, letting its query complete and opening it again shows the
      finished revision list under the "Update History" section, with no second query. */
  lemma ReopenShowsCompletedPicker(t: Toolkit, packageFilename: string -> string, size1: nat, size2: nat,
                                   result: CommandResult, cached: Option<ControlState>)
    requires t.picker.None? && t.editing.Some? && t.editing.value.isPrimaryDataAsset
    requires HeadItemPresent(result, cached)
    ensures var first := MakeDiffMenu(t, true, true, packageFilename, size1);
      && first.widget.Picker? && first.widget.menu.state == HistoryQuery.QueryInProgress
      && var done := PickerCompleted(first.toolkit, result, cached);
         var second := MakeDiffMenu(done, true, true, packageFilename, size2);
         && second.effects == []
         && second.widget.Picker?
         && second.widget.menu.state == HistoryQuery.Queried
         && second.widget.menu.slots == HistoryQuery.Chrome + [HistoryQuery.Revisions(RevisionMenuEntries(result, cached))]
  {
  }
}

=== FILE: history_query.dfy ===
/** The history picker (SRevisionMenu) as a transition system. Its query state goes
    NotQueried -> QueryInProgress -> Queried. Executing and cancelling provider
    operations are effects the transitions emit. An operation's asynchronous
    completion is an explicit event. */
module HistoryQuery {
  import opened Wrappers
  import opened RevisionMenu

  /** ESourceControlQueryState. */
  datatype QueryState = NotQueried | QueryInProgress | Queried

  /** Which completion callback an operation was executed with. */
  datatype Handler = QueryComplete | UpdateHistoryComplete

  /** An FUpdateStatus operation: its identity, whether it forces a history update,
      and the callback it was executed with. */
  datatype Operation = Operation(id: nat, updateHistory: bool, handler: Handler)

  /** The slots of the menu's vertical box, top to bottom. */
  datatype Slot = InProgressBar | UpdateHistorySection | Separator | Revisions(entries: seq<MenuEntry>)

  /** The picker's state. `nextOpId` is the identity the next created operation receives. */
  datatype Menu = Menu(state: QueryState, op: Option<Operation>, filename: string, slots: seq<Slot>, nextOpId: nat)

  /** Calls into the source-control provider. */
  datatype Effect = Execute(op: Operation, filename: string) | Cancel(op: Operation)

  /** A transition's resulting menu and the provider calls it made, in order. */
  datatype Step = Step(menu: Menu, effects: seq<Effect>)

  /** The slots that the first completion adds ahead of the revision list. */
  const Chrome := [InProgressBar, UpdateHistorySection, Separator]

  /** The states the picker can reach. An operation is held exactly while a query is
      in progress, and every held operation was created by this picker. The revision
      list occupies slot 3 once queried, and it is removed again while a refresh runs. */
  predicate Valid(m: Menu) {
    && (m.op.Some? ==> m.op.value.id < m.nextOpId)
    && match m.state
       case NotQueried => m.op.None? && m.slots == [InProgressBar]
       case QueryInProgress =>
         && m.op.Some?
         && (if m.op.value.handler == QueryComplete then m.slots == [InProgressBar] else m.slots == Chrome)
       case Queried => m.op.None? && |m.slots| == 4 && m.slots[..3] == Chrome && m.slots[3].Revisions?
  }

  /** Construct. The picker starts NotQueried. Given an asset, it executes a status
      update for the asset's package file. The update also refreshes the history
      exactly when the provider's cached history is empty. The picker is then
      QueryInProgress. */
  function Construct(assetPath: Option<string>, packageFilename: string -> string, cachedHistorySize: nat): (s: Step)
    ensures Valid(s.menu)
    ensures s.menu.state == (if assetPath.Some? then QueryInProgress else NotQueried)
    ensures s.menu.slots == [InProgressBar]
    ensures assetPath.None? ==> s.effects == [] && s.menu.op.None?
    ensures assetPath.Some? ==>
      && s.menu.filename == packageFilename(assetPath.value)
      && s.menu.op.Some?
      && s.menu.op.value.handler == QueryComplete
      && (s.menu.op.value.updateHistory <==> cachedHistorySize == 0)
      && s.effects == [Execute(s.menu.op.value, s.menu.filename)]
  {
    var initial := Menu(NotQueried, None, "", [InProgressBar], 0);
    match assetPath
    case None => Step(initial, [])
    case Some(path) =>
      var filename := packageFilename(path);
      var op := Operation(0, cachedHistorySize == 0, QueryComplete);
      Step(initial.(state := QueryInProgress, op := Some(op), filename := filename, nextOpId := 1),
           [Execute(op, filename)])
  }

  /** The completion event of the in-flight operation. A first query also adds the
      "Update History" section and a separator. Every completion then appends the
      revision list built from the result, clears the operation and sets Queried. */
  function Complete(m: Menu, result: CommandResult, cached: Option<ControlState>): (r: Menu)
    requires Valid(m) && m.state == QueryInProgress
    requires HeadItemPresent(result, cached)
    ensures Valid(r)
    ensures r.state == Queried && r.op.None?
    ensures r.slots == Chrome + [Revisions(RevisionMenuEntries(result, cached))]
    ensures r.filename == m.filename && r.nextOpId == m.nextOpId
  {
    var slots := if m.op.value.handler == QueryComplete then m.slots + [UpdateHistorySection, Separator] else m.slots;
    m.(state := Queried, op := None, slots := slots + [Revisions(RevisionMenuEntries(result, cached))])
  }

  /** Whether the menu shows the "Update History" entry that triggers a refresh. */
  predicate CanRefresh(m: Menu) {
    UpdateHistorySection in m.slots
  }

  /** The "Update History" action. It does nothing while a query is in progress.
      Otherwise it creates a fresh operation that forces a history update. It also
      removes the shown revision list and enters QueryInProgress. */
  function RefreshHistory(m: Menu): (s: Step)
    requires Valid(m) && CanRefresh(m)
    ensures Valid(s.menu)
    ensures m.state == QueryInProgress ==> s == Step(m, [])
    ensures m.state != QueryInProgress ==>
      && s.menu.state == QueryInProgress
      && s.menu.op.Some?
      && s.menu.op.value.updateHistory
      && (m.op.Some? ==> s.menu.op.value.id != m.op.value.id)
      && s.menu.op.value.id >= m.nextOpId
      && s.menu.op.value.handler == UpdateHistoryComplete
      && s.menu.filename == m.filename
      && s.effects == [Execute(s.menu.op.value, m.filename)]
      && s.menu.slots == Chrome
      && (forall j :: 0 <= j < |s.menu.slots| ==> !s.menu.slots[j].Revisions?)
  {
    if m.state == QueryInProgress then Step(m, [])
    else
      var op := Operation(m.nextOpId, true, UpdateHistoryComplete);
      var slots := if |m.slots| > 3 then m.slots[..3] + m.slots[4..] else m.slots;
      Step(m.(state := QueryInProgress, op := Some(op), slots := slots, nextOpId := m.nextOpId + 1),
           [Execute(op, m.filename)])
  }

  /** The Cancel button: cancels the held operation, if any. */
  function CancelClicked(m: Menu): seq<Effect> {
    match m.op
    case Some(op) => [Cancel(op)]
    case None => []
  }

  /** The destructor: cancels only when a query is in progress, an operation is
      held and the provider can cancel it. */
  function Destroy(m: Menu, canCancel: Operation -> bool): seq<Effect> {
    if m.state == QueryInProgress && m.op.Some? && canCancel(m.op.value) then [Cancel(m.op.value)] else []
  }

  /** Visibility of the "Updating history..." bar. */
  predicate InProgressVisible(m: Menu) {
    m.state == QueryInProgress
  }

  /** Visibility of the Cancel button. */
  predicate CancelButtonVisible(m: Menu, canCancel: Operation -> bool) {
    m.op.Some? && canCancel(m.op.value)
  }

  /** Visibility of the "Update History" section. */
  predicate UpdateMenuVisible(m: Menu) {
    m.state != QueryInProgress
  }

  /** In every reachable state the progress bar and the "Update History" section are
      never shown together. The Cancel button shows only while the bar does.
      Destroying or pressing Cancel reaches the provider only while a query runs,
      and then cancels exactly the held operation. */
  lemma ControlsFollowState(m: Menu, canCancel: Operation -> bool)
    requires Valid(m)
    ensures InProgressVisible(m) <==> !UpdateMenuVisible(m)
    ensures CancelButtonVisible(m, canCancel) ==> InProgressVisible(m)
    ensures Destroy(m, canCancel) != [] <==> InProgressVisible(m) && canCancel(m.op.value)
    ensures Destroy(m, canCancel) != [] ==> Destroy(m, canCancel) == [Cancel(m.op.value)]
    ensures CancelClicked(m) != [] <==> InProgressVisible(m)
    ensures CancelClicked(m) != [] ==> CancelClicked(m) == [Cancel(m.op.value)]
  {
  }

  /** Once queried, the menu shows exactly one revision list, in slot 3. */
  lemma OneRevisionList(m: Menu)
    requires Valid(m) && m.state == Queried
    ensures forall j :: 0 <= j < |m.slots| && m.slots[j].Revisions? ==> j == 3
  {
  }

  /** Open, complete, refresh, complete: the refresh is available after the first
      completion. Its operation is new and forces a history update. The menu ends
      with the chrome and the second result's list only. */
  lemma RefreshLifecycle(
    path: string, packageFilename: string -> string, cachedHistorySize: nat,
    r1: CommandResult, c1: Option<ControlState>, r2: CommandResult, c2: Option<ControlState>)
    requires HeadItemPresent(r1, c1) && HeadItemPresent(r2, c2)
    ensures var start := Construct(Some(path), packageFilename, cachedHistorySize);
      var first := Complete(start.menu, r1, c1);
      CanRefresh(first) &&
      var refresh := RefreshHistory(first);
      && refresh.menu.state == QueryInProgress
      && refresh.menu.op.value.updateHistory
      && refresh.menu.op.value != start.menu.op.value
      && refresh.effects == [Execute(refresh.menu.op.value, packageFilename(path))]
      && Complete(refresh.menu, r2, c2).slots == Chrome + [Revisions(RevisionMenuEntries(r2, c2))]
  {
    var start := Construct(Some(path), packageFilename, cachedHistorySize);
    var first := Complete(start.menu, r1, c1);
    assert first.slots[1] == UpdateHistorySection;
  }
}

=== FILE: names.dfy ===
/** Name and revision-id comparison as the engine's string equality performs it.
    FString's `==` ignores case: two strings are equal when they have the same
    length and agree character by character once ASCII letters are folded to
    lower case. Other characters compare exactly. */
module Names {

  /** The lower-case form of an ASCII upper-case letter. Every other character is
      unchanged. */
  function ToLower(c: char): (d: char)
    ensures 'A' <= c <= 'Z' ==> d as int == c as int + 32
    ensures !('A' <= c <= 'Z') ==> d == c
  {
    if 'A' <= c <= 'Z' then (c as int + 32) as char else c
  }

  /** A string with every ASCII letter folded to lower case. */
  function Fold(s: string): (f: string)
    ensures |f| == |s|
    ensures forall i :: 0 <= i < |s| ==> f[i] == ToLower(s[i])
  {
    if s == [] then [] else [ToLower(s[0])] + Fold(s[1..])
  }

  /** Case-insensitive equality of two names. */
  predicate SameName(a: string, b: string) {
    Fold(a) == Fold(b)
  }

  /** Two names are the same exactly when they have the same length and every
      position agrees after folding. */
  lemma SameNameIff(a: string, b: string)
    ensures SameName(a, b) <==> |a| == |b| && forall i :: 0 <= i < |a| ==> ToLower(a[i]) == ToLower(b[i])
  {
    if |a| == |b| && forall i :: 0 <= i < |a| ==> ToLower(a[i]) == ToLower(b[i]) {
      assert forall i :: 0 <= i < |a| ==> Fold(a)[i] == Fold(b)[i];
    }
  }

  /** The comparison is an equivalence that extends exact equality. */
  lemma SameNameIsEquivalence(a: string, b: string, c: string)
    ensures a == b ==> SameName(a, b)
    ensures SameName(a, b) ==> SameName(b, a)
    ensures SameName(a, b) && SameName(b, c) ==> SameName(a, c)
  {
  }

  /** Folding is idempotent, so a folded name is the same name as the original. */
  lemma FoldIdempotent(s: string)
    ensures Fold(Fold(s)) == Fold(s)
    ensures SameName(Fold(s), s)
  {
  }

  /** Names that differ only in letter case are the same name; names of different
      lengths never are. */
  lemma CaseOnlyDifference()
    ensures SameName("MyData", "Mydata") && "MyData" != "Mydata"
    ensures SameName("head", "HEAD") && "head" != "HEAD"
    ensures !SameName("", "HEAD")
  {
    assert Fold("MyData") == "mydata";
    assert Fold("Mydata") == "mydata";
    assert Fold("head") == "head";
    assert Fold("HEAD") == "head";
  }
}

=== FILE: revision.dfy ===
/** Revision records exchanged between the history menu and the diff dispatcher
    (PrimaryAssetEditorToolkit.h). */
module Revision {
  import opened Wrappers
  import opened Names

  /** An FDateTime, kept as its tick count. The default-constructed value has tick 0. */
  datatype DateTime = DateTime(ticks: int)

  const DefaultDate := DateTime(0)

  /** One history item from the source-control provider (ISourceControlRevision).
      A record that holds one of these holds the content handle. Through it the
      historical package can be fetched. */
  datatype SourceRevision = SourceRevision(
    revision: string,
    checkIn: int,
    date: DateTime,
    filename: string,
    userName: string,
    description: string)

  /** FRevisionInfo: the base revision record. */
  datatype RevisionInfo = RevisionInfo(revision: string, changelist: int, date: DateTime)

  /** FRevisionInfoExtended: a base revision plus an optional content handle. */
  datatype RevisionInfoExtended = RevisionInfoExtended(info: RevisionInfo, data: Option<SourceRevision>)

  /** The revision id that marks the local, uncommitted state of the file. */
  const HeadId := "HEAD"

  /** InvalidRevision(): the single static sentinel value returned by every call.
      It has an empty id, changelist -1, a default date and no content handle. */
  const InvalidRevision := RevisionInfoExtended(RevisionInfo("", -1, DefaultDate), None)

  /** The Local pseudo-revision: a copy of the sentinel whose id is set to HEAD. */
  const LocalRevision := InvalidRevision.(info := InvalidRevision.info.(revision := HeadId))

  /** The base record read from a history item. */
  function InfoOf(r: SourceRevision): RevisionInfo {
    RevisionInfo(r.revision, r.checkIn, r.date)
  }

  /** The extended record built from a history item, with that item as its content handle. */
  function Extend(r: SourceRevision): RevisionInfoExtended {
    RevisionInfoExtended(InfoOf(r), Some(r))
  }

  /** Whether the dispatcher treats a record as the local pseudo-revision. The id
      is compared with HEAD ignoring case, so "head" counts as well. */
  predicate IsHead(e: RevisionInfoExtended) {
    SameName(e.info.revision, HeadId)
  }

  /** Neither sentinel carries a content handle. Only the Local one is recognised as
      HEAD. Both keep the sentinel's changelist and date, and a record built from a
      real history item always has a handle, so no such record equals a sentinel. */
  lemma SentinelsCarryNoContent(r: SourceRevision)
    ensures InvalidRevision.data.None? && LocalRevision.data.None?
    ensures !IsHead(InvalidRevision) && IsHead(LocalRevision)
    ensures LocalRevision.info.changelist == InvalidRevision.info.changelist == -1
    ensures LocalRevision.info.date == InvalidRevision.info.date == DefaultDate
    ensures Extend(r) != InvalidRevision && Extend(r) != LocalRevision
    ensures Extend(r).data == Some(r) && Extend(r).info.revision == r.revision
  {
  }
}

=== FILE: revision_menu.dfy ===
/** The list of (previous, candidate) pairs that the history menu offers once a
    history query completes (SRevisionMenu::OnUpdateHistoryComplete). */
module RevisionMenu {
  import opened Wrappers
  import opened Revision

  /** ECommandResult: how a source-control operation finished. */
  datatype CommandResult = Failed | Cancelled | Succeeded

  /** The provider's cached state for the file. The history is newest first and
      any item in it may be null. `modified` says whether the file is locally modified. */
  datatype ControlState = ControlState(history: seq<Option<SourceRevision>>, modified: bool)

  /** The arguments of the selection callback: previous first, candidate second. */
  datatype RevisionPair = RevisionPair(previous: RevisionInfoExtended, candidate: RevisionInfoExtended)

  /** One entry of the revision list. "Local" diffs the local changes. Historic
      entries are labelled with their revision. "No revisions found" has no action. */
  datatype MenuEntry = Local(pair: RevisionPair) | Historic(pair: RevisionPair) | NoRevisionsFound

  /** Number of non-null items. */
  function CountValid<T>(items: seq<Option<T>>): nat
  {
    if |items| == 0 then 0 else (if items[0].Some? then 1 else 0) + CountValid(items[1..])
  }

  /** The previous revision of history item i, stated by index: the next older item
      when it exists and is non-null, otherwise the sentinel. */
  function PreviousOf(history: seq<Option<SourceRevision>>, i: nat): RevisionInfoExtended
    requires i < |history|
  {
    if i + 1 < |history| && history[i + 1].Some? then Extend(history[i + 1].value) else InvalidRevision
  }

  /** The entries the history loop adds, one per non-null item, walking the
      newest-first history from its head. */
  function HistoryEntries(history: seq<Option<SourceRevision>>): (entries: seq<MenuEntry>)
    ensures |entries| == CountValid(history)
    ensures forall k :: 0 <= k < |entries| ==> entries[k].Historic?
  {
    if |history| == 0 then []
    else
      var previous := if 1 < |history| && history[1].Some? then Extend(history[1].value) else InvalidRevision;
      var here := if history[0].Some? then [Historic(RevisionPair(previous, Extend(history[0].value)))] else [];
      here + HistoryEntries(history[1..])
  }

  /** Whether the completion can list history: the query succeeded, the cached state
      is valid and its history is non-empty. */
  predicate HasHistory(result: CommandResult, state: Option<ControlState>) {
    result == Succeeded && state.Some? && |state.value.history| > 0
  }

  /** What the source demands of the provider. When the file is modified, the Local
      entry reads history item 0 without a null check. */
  predicate HeadItemPresent(result: CommandResult, state: Option<ControlState>) {
    HasHistory(result, state) && state.value.modified ==> state.value.history[0].Some?
  }

  /** The Local entry: the newest history item (with its content handle) paired with
      the HEAD pseudo-revision. */
  function LocalEntry(history: seq<Option<SourceRevision>>): MenuEntry
    requires |history| > 0 && history[0].Some?
  {
    Local(RevisionPair(Extend(history[0].value), LocalRevision))
  }

  /** Number of entries ahead of the history entries: 1 when the Local entry is shown. */
  function LocalOffset(state: ControlState): nat {
    if state.modified then 1 else 0
  }

  /** The revision list built when a history query completes. */
  function RevisionMenuEntries(result: CommandResult, state: Option<ControlState>): (entries: seq<MenuEntry>)
    requires HeadItemPresent(result, state)
    ensures !HasHistory(result, state) <==> entries == [NoRevisionsFound]
    ensures HasHistory(result, state) ==>
      && NoRevisionsFound !in entries
      && |entries| == LocalOffset(state.value) + CountValid(state.value.history)
    ensures HasHistory(result, state) && state.value.modified ==>
      |entries| > 0 && entries[0] == LocalEntry(state.value.history)
    ensures forall k :: 0 <= k < |entries| && entries[k].Local? ==>
      k == 0 && HasHistory(result, state) && state.value.modified
  {
    if HasHistory(result, state) then
      var history := state.value.history;
      var local := if state.value.modified then [LocalEntry(history)] else [];
      var entries := local + HistoryEntries(history);
      assert forall k :: 0 <= k < |entries| ==> !entries[k].NoRevisionsFound?;
      assert entries != [NoRevisionsFound] by {
        if |entries| == 1 {
          assert !entries[0].NoRevisionsFound?;
        }
      }
      entries
    else
      [NoRevisionsFound]
  }

  /** Non-null counting distributes over concatenation. */
  lemma {:induction false} CountValidAppend<T>(a: seq<Option<T>>, b: seq<Option<T>>)
    ensures CountValid(a + b) == CountValid(a) + CountValid(b)
    decreases |a|
  {
    if |a| == 0 {
      assert a + b == b;
    } else {
      assert (a + b)[1..] == a[1..] + b;
      CountValidAppend(a[1..], b);
    }
  }

  /** Each non-null history item i yields exactly the entry
      (PreviousOf(history, i), history[i]). It sits at the position given by the
      number of non-null items newer than it. */
  lemma {:induction false} HistoryEntryAt(history: seq<Option<SourceRevision>>, i: nat)
    requires i < |history| && history[i].Some?
    ensures CountValid(history[..i]) < |HistoryEntries(history)|
    ensures HistoryEntries(history)[CountValid(history[..i])]
         == Historic(RevisionPair(PreviousOf(history, i), Extend(history[i].value)))
    decreases i
  {
    var entries := HistoryEntries(history);
    var rest := history[1..];
    var restEntries := HistoryEntries(rest);
    var head := |entries| - |restEntries|;
    assert entries[head..] == restEntries;
    if i == 0 {
      assert history[..0] == [];
    } else {
      HistoryEntryAt(rest, i - 1);
      assert history[..i] == [history[0]] + rest[..i - 1];
      CountValidAppend([history[0]], rest[..i - 1]);
      assert CountValid([history[0]]) == head by {
        assert [history[0]][1..] == [];
      }
      assert PreviousOf(rest, i - 1) == PreviousOf(history, i);
      assert entries[head + CountValid(rest[..i - 1])] == restEntries[CountValid(rest[..i - 1])];
    }
  }

  /** Conversely, every history entry comes from some non-null item, found at the
      index whose newer non-null items number exactly its position. */
  lemma {:induction false} HistoryEntrySource(history: seq<Option<SourceRevision>>, k: nat) returns (i: nat)
    requires k < |HistoryEntries(history)|
    ensures i < |history| && history[i].Some?
    ensures CountValid(history[..i]) == k
    ensures HistoryEntries(history)[k] == Historic(RevisionPair(PreviousOf(history, i), Extend(history[i].value)))
    decreases |history|
  {
    var rest := history[1..];
    if history[0].Some? && k == 0 {
      i := 0;
      assert history[..0] == [];
    } else {
      var head := if history[0].Some? then 1 else 0;
      assert HistoryEntries(history)[head..] == HistoryEntries(rest);
      var j := HistoryEntrySource(rest, k - head);
      i := j + 1;
      assert history[..i] == [history[0]] + rest[..j];
      CountValidAppend([history[0]], rest[..j]);
      assert [history[0]][1..] == [];
      assert PreviousOf(rest, j) == PreviousOf(history, i);
    }
  }

  /** History entries keep the newest-first order of the history: a newer non-null
      item is listed strictly before an older one. */
  lemma HistoryEntriesOrdered(history: seq<Option<SourceRevision>>, i: nat, j: nat)
    requires i < j < |history| && history[i].Some? && history[j].Some?
    ensures CountValid(history[..i]) < CountValid(history[..j])
  {
    assert history[..j] == history[..i] + history[i..j];
    CountValidAppend(history[..i], history[i..j]);
    assert history[i..j][0] == history[i];
  }

  /** The oldest revision, when present, pairs with the InvalidRevision sentinel and
      is the last entry of the list. */
  lemma OldestPairsWithSentinel(history: seq<Option<SourceRevision>>)
    requires |history| > 0 && history[|history| - 1].Some?
    ensures |HistoryEntries(history)| > 0
    ensures HistoryEntries(history)[|HistoryEntries(history)| - 1]
         == Historic(RevisionPair(InvalidRevision, Extend(history[|history| - 1].value)))
  {
    var n := |history| - 1;
    HistoryEntryAt(history, n);
    assert history == history[..n] + [history[n]];
    CountValidAppend(history[..n], [history[n]]);
    assert [history[n]][1..] == [];
  }

  /** The whole menu, by history index: each non-null item i appears once, after
      the Local entry if there is one, paired with its previous revision. */
  lemma RevisionMenuEntryAt(result: CommandResult, state: Option<ControlState>, i: nat)
    requires HeadItemPresent(result, state) && HasHistory(result, state)
    requires i < |state.value.history| && state.value.history[i].Some?
    ensures var entries := RevisionMenuEntries(result, state);
      var k := LocalOffset(state.value) + CountValid(state.value.history[..i]);
      && k < |entries|
      && entries[k] == Historic(RevisionPair(PreviousOf(state.value.history, i), Extend(state.value.history[i].value)))
  {
    var history := state.value.history;
    HistoryEntryAt(history, i);
    var local := if state.value.modified then [LocalEntry(history)] else [];
    assert |local| == LocalOffset(state.value);
    assert RevisionMenuEntries(result, state) == local + HistoryEntries(history);
  }

  /** Three revisions R3, R2, R1 (newest first) give the pairs (R2, R3), (R1, R2) and
      (sentinel, R1). A local modification puts (R3, HEAD) ahead of them. */
  lemma ThreeRevisionExample(r3: SourceRevision, r2: SourceRevision, r1: SourceRevision, modified: bool)
    ensures var entries := RevisionMenuEntries(Succeeded, Some(ControlState([Some(r3), Some(r2), Some(r1)], modified)));
      var historic := [
        Historic(RevisionPair(Extend(r2), Extend(r3))),
        Historic(RevisionPair(Extend(r1), Extend(r2))),
        Historic(RevisionPair(InvalidRevision, Extend(r1)))];
      entries == (if modified then [Local(RevisionPair(Extend(r3), LocalRevision))] else []) + historic
  {
    var h := [Some(r3), Some(r2), Some(r1)];
    assert h[1..] == [Some(r2), Some(r1)];
    assert h[1..][1..] == [Some(r1)];
    assert h[1..][1..][1..] == [];
    assert HistoryEntries([Some(r1)]) == [Historic(RevisionPair(InvalidRevision, Extend(r1)))];
    assert HistoryEntries([Some(r2), Some(r1)]) == [Historic(RevisionPair(Extend(r1), Extend(r2)))] + HistoryEntries([Some(r1)]);
    assert HistoryEntries(h) == [Historic(RevisionPair(Extend(r2), Extend(r3)))] + HistoryEntries([Some(r2), Some(r1)]);
  }
}

=== FILE: wrappers.dfy ===
/** The optional-value datatype used wherever the editor works with a pointer
    that may be null or a lookup that may fail. */
module Wrappers {

  datatype Option<+T> = None | Some(value: T)
}
